=== FILE: README.md ===
# ThorVG paint node, software image preparation and SVG vector — a Dafny model

This project models three small, sequential parts of the ThorVG vector
graphics engine and proves properties of them.

- **Paint node state (`Paint::Impl`)**, module `PaintImpl` in `paint.dfy`.
  It covers the local transform setters (rotate, scale, translate and the
  overriding matrix) with their dirty flag and their epsilon rule that skips
  an unchanged value. It also covers composite target selection and the
  `update` step. That step refreshes a dirty transform and composes the
  integer opacity. It pushes and pops the clip-path composite list around
  the payload's update, clears the flag word and picks the transform to hand
  down. Disposal order and `duplicate` are covered too. A node is an
  immutable record. The composite target, which its owner holds exclusively,
  is a sub-value of that record. So a chain that loops back on itself, such
  as `p.composite(p, ClipPath)`, cannot be represented; in the source,
  `update` and `dispose` would recurse on it without end. Code the node calls but that this model
  does not contain is a `Backend` value of total functions:
  `RenderTransform::update`, the `RenderTransform(parent, local)`
  composition, and the payload strategy's update and dispose.
- **Image preparation in the software rasterizer (`tvgSwImage.cpp`)**,
  module `SwImage` in `sw_image.dfy`. It builds the closed 5-point,
  1-contour outline of a picture's rectangle. It computes the bounding box
  in 26.6 fixed point: it rounds the minimum down (`>> 6`), rounds the
  maximum up (`(v + 63) >> 6`) and then clamps the box to the clip size. It
  checks degeneracy and validity, and chains these steps as `imagePrepare`.
  The module also has the reset, outline-release, RLE-store and "prepared"
  operations. `mathTransform` is a parameter `toSw` that maps a picture
  point to a 26.6 point. The result of `rleRender` is a parameter too.
- **Growable array `SvgVector<T>`**, module `SvgVector` in `svg_vector.dfy`.
  It covers `push` with the `(cnt + 1) * 2` growth, `pop` that stops at zero,
  and `clear`. The invariant is `cnt <= written slots <= reserved`.

`wrappers.dfy` holds the `Option` type that stands for nullable pointers.

Three behaviours of the code that are easy to misread:

- `_updateBBox` rejects an outline as degenerate only when its raw 26.6
  extent is below 1 unit in both axes. For integer coordinates that means
  all points coincide; it does not mean "less than one device pixel". This
  is proved in `SwImage.DegenerateIffCoincide`.
- `duplicate` does not set every dirty flag on the copy. It adds only the
  Transform bit, and only when the original has a transform. Otherwise the
  copy keeps whatever flags the payload's own duplicate gave it.
- A failed `imagePrepare` does not drop an existing RLE. The RLE is dropped
  only by `imageReset`, or by `imageGenRle` when the rasterizer returns null
  (`SwImage.ImagePrepare`, `SwImage.ImageGenRle`, `SwImage.PreparedLifecycle`).

The source file `tvgRender.h` is not part of this model. The model takes a
new `RenderTransform` to have `x = y = degree = 0`, `scale = 1`, not
overriding, and a zero matrix. It takes `RenderTransform::override(m)` to
store `m` and switch to overriding mode. It takes the update flag bits to
be Path, Color, Gradient, Stroke, Transform and All.

## Model

| member | source | states |
|---|---|---|
| `PaintImpl.Rotate` | src/lib/tvgPaint.h:62-74 | The node's effective angle ends within epsilon of the request. The node is unchanged when the request is within epsilon of the current angle, or of 0 when no transform exists. Otherwise the new angle is stored and the other components are kept. The Transform bit is raised unless the transform is overriding. In overriding mode the flag word and the matrix do not change. |
| `PaintImpl.ScaleAsWritten` | src/lib/tvgPaint.h:76-88 | The scale setter as written. With no transform, a factor within epsilon of 0 leaves the node unchanged. With a transform, a factor within epsilon of the stored one leaves it unchanged. Otherwise the factor is stored and the node is marked dirty unless overriding. |
| `PaintImpl.Scale` | src/lib/tvgPaint.h:76-88 | The corrected scale setter. The effective scale ends within epsilon of the request. With no transform, the "unchanged" test is against the identity scale 1. The rest follows the same rules as rotate. |
| `PaintImpl.Translate` | src/lib/tvgPaint.h:90-104 | Both effective coordinates end within epsilon of the request. The node is unchanged only when both coordinates are within epsilon of the current ones (0 without a transform). Otherwise both are stored, with the same dirty and overriding rules. |
| `PaintImpl.SetTransform` | src/lib/tvgPaint.h:106-115 | A transform always exists afterwards. It is overriding and holds the given matrix. The Transform bit is always added. Existing components are kept. A node without a transform gets a fresh default one (position 0, angle 0, scale 1) that holds the matrix. The rest of the node is untouched. |
| `PaintImpl.SettersSettle` | src/lib/tvgPaint.h:62-104 | Calling rotate, scale or translate again with the same value is a no-op. |
| `PaintImpl.ScaleZeroIgnored` | src/lib/tvgPaint.h:79-80 | On a node without a transform, the as-written `scale(0)` changes nothing, so the node keeps scale 1. The corrected setter stores 0 and marks the node dirty. |
| `PaintImpl.SetComposite` | src/lib/tvgPaint.h:182-187 | The call fails exactly when the target is null and the method is not None. A failed call changes nothing. A successful call overwrites both the target and the method. |
| `PaintImpl.ComposeOpacity` | src/lib/tvgPaint.h:146 | When the parent opacity is at most 255, the result is the truncated quotient `parent * own / 255`. It is at most both factors, 255 is the identity and 0 absorbs. More generally, whenever the product fits in 32 bits the result is its truncated quotient by 255. Above that, the model computes the product modulo 2^32 as the source does, but the contract promises nothing there. |
| `PaintImpl.OpacityInRange` | src/lib/tvgPaint.h:146 | For factors in 0..255, the 32-bit product cannot wrap, and the quotient is bounded by both factors. |
| `PaintImpl.HandDown` | src/lib/tvgPaint.h:148-154 | The payload gets the composition when both the parent and the node have a transform. Otherwise it gets whichever one exists, or none. |
| `PaintImpl.Update` | src/lib/tvgPaint.h:126-159 | The caller's composite list comes back exactly as it went in. If the node is transform-dirty with no transform, update returns null and touches nothing. Otherwise several things hold. The flag word is cleared. A dirty transform is replaced by its refresh. The payload gets the parent's flags joined with the node's, the composed opacity and the handed-down transform. A clip-path target is updated first with the parent's inputs. The payload's list has one entry `(data, ClipPath)` added exactly when that target produced data. |
| `PaintImpl.UpdateSettles` | src/lib/tvgPaint.h:126-159 | A second update with the same inputs leaves the node as the first update left it. It hands down the same transform and opacity, with only the parent's flags. |
| `PaintImpl.ClearedCompositeAddsNoClip` | src/lib/tvgPaint.h:138-141 | Clearing the composite (null target, method None) always succeeds. After it, update passes the caller's composite list to the payload unchanged. |
| `PaintImpl.Dispose` | src/lib/tvgPaint.h:121-124 | The node's own payload is disposed last, after its composite target. The result is the payload's dispose result; the target's result is ignored. |
| `PaintImpl.DisposeDeepestFirst` | src/lib/tvgPaint.h:121-124 | The disposal order is the composite chain reversed. Every target is disposed once, before the node that owns it. |
| `PaintImpl.CopyState` | src/lib/tvgPaint.h:168-177 | The copy gets the original's opacity. When the original has a transform, the copy gets that transform and the Transform bit. Everything else comes from the payload's copy. |
| `PaintImpl.DuplicateAsWritten` | src/lib/tvgPaint.h:165-180 | The duplicate as written dereferences null exactly when the payload's copy is null. Otherwise it yields the copied state. |
| `PaintImpl.Duplicate` | src/lib/tvgPaint.h:165-180 | The corrected duplicate gives a copy exactly when the payload made one. The copy gets the original's opacity. The content, composite target and method come from the payload's copy. When the original has a transform, the copy gets it, and its flags are the payload copy's flags plus Transform. Otherwise the payload's transform and flags stay. |
| `PaintImpl.DuplicateNullDereference` | src/lib/tvgPaint.h:169-177 | When the payload's copy is null, the as-written duplicate dereferences null but the corrected one returns null. In every other case the two agree. |
| `PaintImpl.DuplicateThenUpdate` | src/lib/tvgPaint.h:165-180 | The copy of a node with a transform is refreshed on its next update. That update hands down the refreshed copied transform and the same composed opacity as the original. |
| `SwImage.FloorPixel` | src/lib/sw_engine/tvgSwImage.cpp:57 | `v >> 6` gives the pixel that contains `v`: `64 r <= v < 64 r + 64`. This also holds for negative `v`. |
| `SwImage.CeilPixel` | src/lib/sw_engine/tvgSwImage.cpp:58 | `(v + 63) >> 6` gives the smallest pixel edge at or beyond `v`: `64 r - 64 < v <= 64 r`. |
| `SwImage.Scan` | src/lib/sw_engine/tvgSwImage.cpp:44-56 | The scan loop's extremes bound every point, and each extreme is reached by some point. |
| `SwImage.RawBoxIsTightCover` | src/lib/sw_engine/tvgSwImage.cpp:57-60 | The unclamped device box covers every point, `64 min <= p <= 64 max`. It is the smallest such box: moving any side in by one pixel leaves some point outside. |
| `SwImage.UpdateBBox` | src/lib/sw_engine/tvgSwImage.cpp:34-70 | With no outline, the box is untouched and the result is false. With no points, the box is zeroed and the result is false. Otherwise the box is the rounded extent clamped to `[0, clip]`. It is written even when the result is false, and the result is true exactly when some two points differ. |
| `SwImage.DegenerateIffCoincide` | src/lib/sw_engine/tvgSwImage.cpp:67 | "Extent below 1 in both axes" holds exactly when all points coincide. |
| `SwImage.CheckValid` | src/lib/sw_engine/tvgSwImage.cpp:72-80 | True exactly when there are points and contours, and the box meets the clip rectangle: `min.x < w`, `min.y < h`, `max.x > 0`, `max.y > 0`. |
| `SwImage.ImageGenOutline` | src/lib/sw_engine/tvgSwImage.cpp:120-158 | The pool supplies an outline with zero counts. The call fails exactly when the width or height is 0, and then the image holds the untouched pooled outline. On success there are 5 points and 1 contour, which close the transformed rectangle (point 5 equals point 1). All points are on-curve. The contour end is `ptsCnt - 1`, the contour is not open, and the outline is well formed. The picture size is recorded. |
| `SwImage.ImagePrepare` | src/lib/sw_engine/tvgSwImage.cpp:86-95 | When outline generation fails, the result is exactly that failed step. Otherwise the image holds the generated outline and the box `UpdateBBox` computed from it. The call succeeds exactly when the size is non-zero, the corners do not all coincide and the clamped box passes the validity check. On success the box lies within the clip with `min <= max`. The RLE is never touched. |
| `SwImage.OutsideBoxMissesClip` | src/lib/sw_engine/tvgSwImage.cpp:57-77 | When all points lie beyond one clip edge, the clamped box fails the boundary test. |
| `SwImage.PrepareRejectsOutside` | src/lib/sw_engine/tvgSwImage.cpp:86-95 | A picture whose transformed rectangle lies wholly beyond one clip edge is never prepared. |
| `SwImage.PrepareClampsToEdges` | src/lib/sw_engine/tvgSwImage.cpp:62-65 | A prepared picture that reaches across a clip edge gets a box clamped exactly to that edge (0, or the clip width or height). |
| `SwImage.ImageGenRle` | src/lib/sw_engine/tvgSwImage.cpp:101-107 | The image's RLE becomes whatever the rasterizer returned, so a null result drops an earlier RLE. The result is true exactly when a mask came back, which is exactly when the image is then prepared. Nothing but the RLE changes: the outline, box, width and height are untouched. |
| `SwImage.ImagePrepared` | src/lib/sw_engine/tvgSwImage.cpp:97-99 | An image is prepared exactly when it holds a non-null RLE. `PreparedLifecycle` relates this to reset, prepare and RLE generation. |
| `SwImage.ImageReset` | src/lib/sw_engine/tvgSwImage.cpp:114-118 | The image is not prepared afterwards. The box is all zeros and the outline is kept. |
| `SwImage.ImageDelOutline` | src/lib/sw_engine/tvgSwImage.cpp:109-112 | The outline is gone afterwards. Nothing else changes: the RLE, box, width and height stay. |
| `SwImage.PreparedLifecycle` | src/lib/sw_engine/tvgSwImage.cpp:97-118 | After a reset, preparing leaves the image unprepared. Only a mask from the rasterizer makes it prepared again. |
| `SvgVector.Empty` | src/loaders/svg/tvgSvgLoaderCommon.h:115-117 | A new vector is valid and empty, with no capacity. |
| `SvgVector.Push` | src/loaders/svg/tvgSvgLoaderCommon.h:119-125 | The invariant is kept and `cnt` grows by one. The live elements gain `e` at index old `cnt`, and earlier elements stay. Growth happens only when the vector is full, and then sets `reserved` to `(cnt + 1) * 2`. Otherwise `reserved` stays. The capacity never exceeds twice the count if it did not before. |
| `SvgVector.Pop` | src/loaders/svg/tvgSvgLoaderCommon.h:127-129 | The invariant is kept. A positive `cnt` drops the last live element. At 0 the call is a no-op. `reserved` and the buffer never change. |
| `SvgVector.Clear` | src/loaders/svg/tvgSvgLoaderCommon.h:131-135 | Afterwards there are no elements, and `cnt` and `reserved` are both 0. |
| `SvgVector.PushAll` | src/loaders/svg/tvgSvgLoaderCommon.h:119-125 | Any run of pushes keeps the invariant `cnt <= reserved`. |
| `SvgVector.PopN` | src/loaders/svg/tvgSvgLoaderCommon.h:127-129 | Any run of pops keeps the invariant. |
| `SvgVector.PushThenPop` | src/loaders/svg/tvgSvgLoaderCommon.h:119-129 | A push followed by a pop restores `cnt` and the live elements, and keeps any capacity the push reserved. |
| `SvgVector.PushAllAppends` | src/loaders/svg/tvgSvgLoaderCommon.h:119-125 | Pushing a sequence appends it, in order, to the live elements. |
| `SvgVector.PopNDrops` | src/loaders/svg/tvgSvgLoaderCommon.h:127-129 | Popping `n <= cnt` times removes exactly the last `n` elements and keeps the capacity. |
| `SvgVector.PushAllThenPopN` | src/loaders/svg/tvgSvgLoaderCommon.h:119-129 | Popping as many elements as were pushed restores the original live elements. |
| `SvgVector.PushAllCapacityBound` | src/loaders/svg/tvgSvgLoaderCommon.h:120-121 | Starting from a vector whose capacity is at most twice its count, such as a fresh one, any run of pushes keeps that bound. |

## Findings

| source | as written | input that shows it | evidently intended | confidence | as-written member | corrected member |
|---|---|---|---|---|---|---|
| src/lib/tvgPaint.h:80 | With no transform yet, `scale` skips a factor within epsilon of 0. The identity scale is 1. | `scale(0.0)` on a node never transformed returns true, creates no transform and leaves the node at scale 1. The same call on a rotated node stores 0. | Compare against 1, the scale a new transform starts with. | medium; not executed | `PaintImpl.ScaleAsWritten` (shown by `PaintImpl.ScaleZeroIgnored`) | `PaintImpl.Scale` |
| src/lib/tvgPaint.h:169-177 | The copy `ret` is tested for null before the transform is copied. It is then dereferenced without a test to store the opacity. | The payload's `duplicate()` returns nullptr. | Guard the opacity store as well and return the null copy. | medium; not executed | `PaintImpl.DuplicateAsWritten` (shown by `PaintImpl.DuplicateNullDereference`) | `PaintImpl.Duplicate` |

## Left out

- `bounds` and `render` of `Paint::Impl` only forward to the strategy object, and `method` only installs it. They have no logic of their own.
- `imageFree` only hands the RLE storage to `rleFree`, which is not part of this model. No field of the image changes.
- `RenderTransform::update`, the `RenderTransform(parent, local)` composition and `mathTransform` are floating-point matrix code. `tvgRender.cpp` and `tvgSwMath.cpp` are not part of this model. These calls are uninterpreted functions: `Backend.refresh`, `Backend.compose` and the `toSw` parameter.
- The payload strategy's update and dispose are uninterpreted functions of the payload and the arguments handed to it. Any change they make inside the payload (a scene's children, for example) is not modelled. The strategy takes the composite list by value, so it cannot change the caller's list.
- Allocation failure is not modelled: a failed `new RenderTransform()` returning false, a failed `realloc`, and pool growth. The setters are modelled as always succeeding, so they return only the new node state.
- Floats are exact reals. `fabsf(a - b) <= FLT_EPSILON` is evaluated without float rounding. The picture's width and height are kept as reals.
- The pool is not modelled. `mpoolReqOutline` becomes a parameter: an outline with zero point and contour counts. Nothing is claimed about pool reuse or capacity. `mpoolRetOutline` has no effect on the image beyond `imageDelOutline` dropping the outline.
- `PaintImpl.SetTransform`: assumes `RenderTransform::override(m)` always enters overriding mode, whatever `m` is. That function is in `tvgRender.cpp`, which is not part of this model, so the model cannot state when it leaves overriding mode.
- `SwImage.UpdateBBox`: does not model overflow of the signed coordinate type in `xMax + 63`. Coordinates are unbounded integers.
- `SvgVector.Push`: does not model 32-bit wrap-around of `cnt + 1` or `(cnt + 1) * 2`, because that needs about 2^31 elements. Slots beyond the last write hold no value in the model; in the source they are uninitialised memory that nothing reads.
- The per-thread `tid` only selects a pool slot, so the model has no concurrency.
- Composite methods other than None and ClipPath are one catch-all case. `update` acts only on ClipPath.
- `dispose` is not claimed to be idempotent. The source has no guard that would make it so.

=== FILE: paint.dfy ===
/** The state machine of a paint node (`Paint::Impl`): local transform
    setters with their dirty flag and epsilon "unchanged" rule, composite
    target selection, the update step that composes opacity and transforms
    and keeps the clip-path list balanced, disposal order and duplication.
    Floats are reals; the calls the node makes into code outside this model
    are the fields of a `Backend` value. */
module PaintImpl {
  import opened Wrappers

  /** `FLT_EPSILON`, 2^-23. */
  const FltEpsilon: real := 0.00000011920928955078125

  function Abs(a: real): real { if a < 0.0 then -a else a }

  /** `fabsf(a - b) <= FLT_EPSILON`. */
  predicate Near(a: real, b: real)
  {
    Abs(a - b) <= FltEpsilon
  }

  /** `uint8_t` and `uint32_t`. */
  type Byte = x: int | 0 <= x < 0x100
  type U32 = x: int | 0 <= x < 0x1_0000_0000

  datatype Matrix = Matrix(
    e11: real, e12: real, e13: real,
    e21: real, e22: real, e23: real,
    e31: real, e32: real, e33: real)

  /** A local transform: either its components (translation, rotation in
      degrees, uniform scale) or, when `overriding`, the raw matrix `m`. */
  datatype RenderTransform = RenderTransform(
    m: Matrix, x: real, y: real, degree: real, scale: real, overriding: bool)

  /** A freshly allocated `RenderTransform`: the identity components, not
      overriding. */
  const DefaultTransform: RenderTransform :=
    RenderTransform(Matrix(0.0, 0.0, 0.0, 0.0, 0.0, 0.0, 0.0, 0.0, 0.0), 0.0, 0.0, 0.0, 1.0, false)

  /** Bits of the update-flag word; the word itself is the set of its bits. */
  datatype UpdateFlag = Path | Color | Gradient | Stroke | Transform | All

  /** How a composite target combines with its owner. Only `ClipPath` is acted
      on by `update`; `OtherMethod` stands for any further method. */
  datatype CompositeMethod = NoComposite | ClipPath | OtherMethod(code: nat)

  /** Identity of the node's payload (the shape, picture or scene behind the
      strategy object). */
  type Content = nat

  /** Opaque engine data an update may produce (`nullptr` is `None`). */
  type EngineData = nat

  /** One entry of the active composite list. */
  datatype Composite = Composite(edata: EngineData, compMethod: CompositeMethod)

  /** `Paint::Impl`. The composite target is owned by the node that refers to
      it, so it is a sub-value here. */
  datatype Paint = Paint(
    content: Content,
    rTransform: Option<RenderTransform>,
    flag: set<UpdateFlag>,
    compTarget: Option<Paint>,
    compMethod: CompositeMethod,
    opacity: Byte)

  /** The arguments an update hands to the payload's own update. */
  datatype StrategyCall = StrategyCall(
    transform: Option<RenderTransform>,
    opacity: U32,
    compList: seq<Composite>,
    flag: set<UpdateFlag>)

  /** Code the node calls but this model does not contain:
      `refresh` is `RenderTransform::update` (None when it reports failure and
      the transform is dropped), `compose` is the `RenderTransform(parent,
      local)` constructor, `paintUpdate` and `paintDispose` are the strategy's
      update and dispose. */
  datatype Backend = Backend(
    refresh: RenderTransform -> Option<RenderTransform>,
    compose: (RenderTransform, RenderTransform) -> RenderTransform,
    paintUpdate: (Content, StrategyCall) -> Option<EngineData>,
    paintDispose: Content -> bool)

  /** What `update` leaves behind: the node's new state, the returned engine
      data, the caller's composite list after the call, and the call made to
      the payload (None when update returned before reaching it). */
  datatype UpdateResult = UpdateResult(
    node: Paint,
    edata: Option<EngineData>,
    compList: seq<Composite>,
    call: Option<StrategyCall>)

  datatype CompositeResult = CompositeResult(node: Paint, ok: bool)

  /** The order in which payloads are disposed, and the returned result. */
  datatype DisposeResult = DisposeResult(order: seq<Content>, ok: bool)

  /** Everything but the transform and the flag word is the same. */
  predicate SameExceptTransform(p: Paint, q: Paint)
  {
    && p.content == q.content && p.compTarget == q.compTarget
    && p.compMethod == q.compMethod && p.opacity == q.opacity
  }

  /** The transform a setter writes into: the existing one, or a new default. */
  function Base(p: Paint): RenderTransform
  {
    if p.rTransform.Some? then p.rTransform.value else DefaultTransform
  }

  /** The flag word after a component setter wrote `t`: dirty unless the
      transform is overriding. */
  function MarkComponent(flag: set<UpdateFlag>, t: RenderTransform): set<UpdateFlag>
  {
    if t.overriding then flag else flag + {Transform}
  }

  /** A component setter changed the transform: `t` is stored, the rest of the
      node stays, and the Transform bit is raised unless overriding. */
  predicate ComponentWritten(p: Paint, r: Paint, t: RenderTransform)
  {
    && SameExceptTransform(p, r)
    && r.rTransform == Some(t)
    && (Transform in r.flag <==> Transform in p.flag || !t.overriding)
    && r.flag - {Transform} == p.flag - {Transform}
  }

  // ---------------------------------------------------------------- setters

  /** `rotate`: skip when the new angle is within epsilon of the current one
      (0 when there is no transform yet); otherwise store it. */
  function Rotate(p: Paint, degree: real): (r: Paint)
    ensures p.rTransform.None? && Near(degree, 0.0) ==> r == p
    ensures p.rTransform.Some? && Near(degree, p.rTransform.value.degree) ==> r == p
    ensures Near(Base(r).degree, degree)
    ensures r != p ==> ComponentWritten(p, r, Base(p).(degree := degree))
    ensures p.rTransform.Some? && p.rTransform.value.overriding ==>
      r.flag == p.flag && Base(r).m == Base(p).m && Base(r).overriding
  {
    if p.rTransform.Some? && Near(degree, p.rTransform.value.degree) then p
    else if p.rTransform.None? && Near(degree, 0.0) then p
    else
      var t := Base(p).(degree := degree);
      p.(rTransform := Some(t), flag := MarkComponent(p.flag, t))
  }

  /** `scale` as the source writes it: with no transform yet, a factor within
      epsilon of 0 is skipped, though the identity scale is 1. */
  function ScaleAsWritten(p: Paint, factor: real): (r: Paint)
    ensures p.rTransform.None? && Near(factor, 0.0) ==> r == p
    ensures p.rTransform.Some? && Near(factor, p.rTransform.value.scale) ==> r == p
    ensures !(p.rTransform.None? && Near(factor, 0.0))
            && !(p.rTransform.Some? && Near(factor, p.rTransform.value.scale)) ==>
      ComponentWritten(p, r, Base(p).(scale := factor))
    ensures r != p ==> ComponentWritten(p, r, Base(p).(scale := factor))
  {
    if p.rTransform.Some? && Near(factor, p.rTransform.value.scale) then p
    else if p.rTransform.None? && Near(factor, 0.0) then p
    else
      var t := Base(p).(scale := factor);
      p.(rTransform := Some(t), flag := MarkComponent(p.flag, t))
  }

  /** `scale`, comparing against the identity scale 1 when there is no
      transform yet, so the stored or implied scale is always within epsilon
      of the request. */
  function Scale(p: Paint, factor: real): (r: Paint)
    ensures p.rTransform.None? && Near(factor, 1.0) ==> r == p
    ensures p.rTransform.Some? && Near(factor, p.rTransform.value.scale) ==> r == p
    ensures Near(Base(r).scale, factor)
    ensures r != p ==> ComponentWritten(p, r, Base(p).(scale := factor))
    ensures p.rTransform.Some? && p.rTransform.value.overriding ==>
      r.flag == p.flag && Base(r).m == Base(p).m && Base(r).overriding
  {
    if p.rTransform.Some? && Near(factor, p.rTransform.value.scale) then p
    else if p.rTransform.None? && Near(factor, 1.0) then p
    else
      var t := Base(p).(scale := factor);
      p.(rTransform := Some(t), flag := MarkComponent(p.flag, t))
  }

  /** `translate`: skip when both coordinates are within epsilon of the
      current ones (0 when there is no transform yet); otherwise store them. */
  function Translate(p: Paint, x: real, y: real): (r: Paint)
    ensures p.rTransform.None? && Near(x, 0.0) && Near(y, 0.0) ==> r == p
    ensures p.rTransform.Some? && Near(x, p.rTransform.value.x) && Near(y, p.rTransform.value.y) ==> r == p
    ensures Near(Base(r).x, x) && Near(Base(r).y, y)
    ensures r != p ==> ComponentWritten(p, r, Base(p).(x := x, y := y))
    ensures p.rTransform.Some? && p.rTransform.value.overriding ==>
      r.flag == p.flag && Base(r).m == Base(p).m && Base(r).overriding
  {
    if p.rTransform.Some? && Near(x, p.rTransform.value.x) && Near(y, p.rTransform.value.y) then p
    else if p.rTransform.None? && Near(x, 0.0) && Near(y, 0.0) then p
    else
      var t := Base(p).(x := x, y := y);
      p.(rTransform := Some(t), flag := MarkComponent(p.flag, t))
  }

  /** `transform(m)`: make sure a transform exists, switch it to the raw
      matrix and always mark the node dirty. */
  function SetTransform(p: Paint, m: Matrix): (r: Paint)
    ensures SameExceptTransform(p, r)
    ensures r.rTransform.Some? && r.rTransform.value.overriding && r.rTransform.value.m == m
    ensures r.flag == p.flag + {Transform}
    ensures p.rTransform.Some? ==>
      var t := p.rTransform.value;
      var u := r.rTransform.value;
      u.x == t.x && u.y == t.y && u.degree == t.degree && u.scale == t.scale
    ensures p.rTransform.None? ==> r.rTransform == Some(DefaultTransform.(m := m, overriding := true))
  {
    p.(rTransform := Some(Base(p).(m := m, overriding := true)), flag := p.flag + {Transform})
  }

  /** `composite(target, method)`: a missing target is only accepted together
      with `NoComposite`; a rejected call changes nothing. */
  function SetComposite(p: Paint, target: Option<Paint>, how: CompositeMethod): (r: CompositeResult)
    ensures !r.ok <==> target.None? && how != NoComposite
    ensures !r.ok ==> r.node == p
    ensures r.ok ==> r.node.compTarget == target && r.node.compMethod == how
    ensures r.node.content == p.content && r.node.rTransform == p.rTransform
    ensures r.node.flag == p.flag && r.node.opacity == p.opacity
  {
    if target.None? && how != NoComposite then CompositeResult(p, false)
    else CompositeResult(p.(compTarget := target, compMethod := how), true)
  }

  /** Repeating a component setter with the same value is a no-op: the
      first call already left the component within epsilon of the request. */
  lemma SettersSettle(p: Paint, degree: real, factor: real, x: real, y: real)
    ensures Rotate(Rotate(p, degree), degree) == Rotate(p, degree)
    ensures Scale(Scale(p, factor), factor) == Scale(p, factor)
    ensures Translate(Translate(p, x, y), x, y) == Translate(p, x, y)
  {
  }

  /** On a node without a transform, the as-written `scale(0)` is silently
      dropped: the node keeps the identity scale 1, far from the requested 0.
      The corrected setter stores the 0. */
  lemma ScaleZeroIgnored(p: Paint)
    requires p.rTransform.None?
    ensures ScaleAsWritten(p, 0.0) == p
    ensures Base(ScaleAsWritten(p, 0.0)).scale == 1.0
    ensures !Near(Base(ScaleAsWritten(p, 0.0)).scale, 0.0)
    ensures Scale(p, 0.0).rTransform == Some(DefaultTransform.(scale := 0.0))
    ensures Transform in Scale(p, 0.0).flag
  {
  }

  // ----------------------------------------------------------------- update

  /** `(parent * own) / 255` in 32-bit unsigned arithmetic: the product wraps
      modulo 2^32 before the truncating division. Within the 0..255 range
      the result never exceeds either factor, 255 is the identity and 0
      absorbs. */
  function ComposeOpacity(parent: U32, own: Byte): (r: U32)
    ensures parent <= 255 ==> r <= parent && r <= own
    ensures parent * own < 0x1_0000_0000 ==> 255 * r <= parent * own < 255 * r + 255
    ensures own == 255 && parent <= 255 ==> r == parent
    ensures parent == 0 || own == 0 ==> r == 0
  {
    // Both branches compute the same value; they differ only in the proof
    // steps the verifier needs on each side of the 0..255 range.
    if parent <= 255 then OpacityInRange(parent, own); ((parent * own) % 0x1_0000_0000) / 255
    else
      assert 0 <= parent * own;
      assert parent * own < 0x1_0000_0000 ==> (parent * own) % 0x1_0000_0000 == parent * own;
      ((parent * own) % 0x1_0000_0000) / 255
  }

  /** Within the 0..255 range the 32-bit product cannot wrap, and the
      truncating division stays below both factors. */
  lemma OpacityInRange(parent: int, own: int)
    requires 0 <= parent <= 255 && 0 <= own <= 255
    ensures (parent * own) % 0x1_0000_0000 == parent * own
    ensures var q := (parent * own) / 255;
      && 255 * q <= parent * own < 255 * q + 255
      && q <= parent && q <= own
  {
    assert parent * own <= parent * 255 <= 255 * 255;
    assert own * parent <= own * 255;
    var q := (parent * own) / 255;
    assert 255 * q <= parent * own;
    assert 255 * q <= 255 * parent;
    assert 255 * q <= 255 * own;
  }

  /** The transform handed to the payload: the composition when both the
      parent and the node have one, otherwise whichever exists. */
  function HandDown(b: Backend, parent: Option<RenderTransform>, local: Option<RenderTransform>)
    : (r: Option<RenderTransform>)
    ensures r.None? <==> parent.None? && local.None?
    ensures parent.None? ==> r == local
    ensures local.None? ==> r == parent
    ensures parent.Some? && local.Some? ==> r == Some(b.compose(parent.value, local.value))
  {
    if local.Some? && parent.Some? then Some(b.compose(parent.value, local.value))
    else if parent.Some? then parent
    else local
  }

  /** The node is marked transform-dirty but has no transform: `update`
      returns null at once, touching nothing. */
  predicate Stalled(p: Paint)
  {
    Transform in p.flag && p.rTransform.None?
  }

  /** `update`. A transform-dirty node refreshes its transform (dropping it if
      the refresh fails). A clip-path target is updated first with the
      parent's inputs; if it produced data, that data is pushed on the
      composite list for the payload's update and popped afterwards. The
      payload receives the parent's flags joined with the node's, the
      composed opacity and the handed-down transform; the node's flags are
      cleared. */
  function Update(b: Backend, p: Paint, pTransform: Option<RenderTransform>, opacity: U32,
                  compList: seq<Composite>, pFlag: set<UpdateFlag>): (r: UpdateResult)
    ensures r.compList == compList
    ensures r.node.content == p.content && r.node.opacity == p.opacity
    ensures r.node.compMethod == p.compMethod
    ensures r.node.compTarget.Some? <==> p.compTarget.Some?
    ensures r.call.None? <==> Stalled(p)
    ensures Stalled(p) ==> r.node == p && r.edata.None?
    ensures !Stalled(p) ==> r.node.flag == {}
    ensures !Stalled(p) ==> r.edata == b.paintUpdate(p.content, r.call.value)
    ensures Transform !in p.flag ==> r.node.rTransform == p.rTransform
    ensures !Stalled(p) && Transform in p.flag ==> r.node.rTransform == b.refresh(p.rTransform.value)
    ensures !Stalled(p) ==>
      var c := r.call.value;
      && c.flag == pFlag + p.flag
      && c.opacity == ComposeOpacity(opacity, p.opacity)
      && c.transform == HandDown(b, pTransform, r.node.rTransform)
    ensures !Stalled(p) && (p.compTarget.None? || p.compMethod != ClipPath) ==>
      r.call.value.compList == compList && r.node.compTarget == p.compTarget
    ensures !Stalled(p) && p.compTarget.Some? && p.compMethod == ClipPath ==>
      var t := Update(b, p.compTarget.value, pTransform, opacity, compList, pFlag);
      && r.node.compTarget == Some(t.node)
      && r.call.value.compList == compList + (if t.edata.Some? then [Composite(t.edata.value, ClipPath)] else [])
    decreases p
  {
    if Stalled(p) then
      UpdateResult(p, None, compList, None)
    else
      var local := if Transform in p.flag then b.refresh(p.rTransform.value) else p.rTransform;
      var clips := p.compTarget.Some? && p.compMethod == ClipPath;
      var t := if clips then Some(Update(b, p.compTarget.value, pTransform, opacity, compList, pFlag)) else None;
      var target := if clips then Some(t.value.node) else p.compTarget;
      var compData := if clips then t.value.edata else None;
      var listAfterTarget := if clips then t.value.compList else compList;
      var pushed := if compData.Some? then listAfterTarget + [Composite(compData.value, p.compMethod)]
                    else listAfterTarget;
      var call := StrategyCall(HandDown(b, pTransform, local), ComposeOpacity(opacity, p.opacity),
                               pushed, pFlag + p.flag);
      var edata := b.paintUpdate(p.content, call);
      var popped := if compData.Some? then pushed[..|pushed| - 1] else pushed;
      UpdateResult(p.(rTransform := local, compTarget := target, flag := {}), edata, popped, Some(call))
  }

  /** A second update with the same inputs and nothing changed in between
      leaves the node exactly as the first left it, and hands the payload the
      same transform and opacity, with only the parent's flags. */
  lemma {:induction false} UpdateSettles(b: Backend, p: Paint, pTransform: Option<RenderTransform>,
                                         opacity: U32, compList: seq<Composite>, pFlag: set<UpdateFlag>)
    ensures var r1 := Update(b, p, pTransform, opacity, compList, pFlag);
            var r2 := Update(b, r1.node, pTransform, opacity, compList, pFlag);
            && r2.node == r1.node
            && (r2.call.Some? <==> r1.call.Some?)
            && (r1.call.Some? ==>
                  && r2.call.value.transform == r1.call.value.transform
                  && r2.call.value.opacity == r1.call.value.opacity
                  && r2.call.value.flag == pFlag)
    decreases p
  {
    var r1 := Update(b, p, pTransform, opacity, compList, pFlag);
    if !Stalled(p) && p.compTarget.Some? && p.compMethod == ClipPath {
      UpdateSettles(b, p.compTarget.value, pTransform, opacity, compList, pFlag);
    }
  }

  /** Clearing the composite (null target, no method) always succeeds, and
      afterwards update hands the payload the caller's composite list
      unchanged. */
  lemma ClearedCompositeAddsNoClip(b: Backend, p: Paint, pTransform: Option<RenderTransform>,
                                   opacity: U32, compList: seq<Composite>, pFlag: set<UpdateFlag>)
    requires !Stalled(p)
    ensures var c := SetComposite(p, None, NoComposite);
            && c.ok
            && Update(b, c.node, pTransform, opacity, compList, pFlag).call.value.compList == compList
  {
  }

  // --------------------------------------------------------------- dispose

  /** The node followed by its chain of composite targets. */
  function Chain(p: Paint): (r: seq<Content>)
    ensures |r| > 0 && r[0] == p.content
    decreases p
  {
    [p.content] + (if p.compTarget.Some? then Chain(p.compTarget.value) else [])
  }

  function Reverse<T>(s: seq<T>): (r: seq<T>)
    ensures |r| == |s|
  {
    if s == [] then [] else Reverse(s[1..]) + [s[0]]
  }

  /** `dispose`: the composite target (whatever its method) is disposed
      before the node's own payload; the result is the payload's alone. */
  function Dispose(b: Backend, p: Paint): (r: DisposeResult)
    ensures |r.order| > 0 && r.order[|r.order| - 1] == p.content
    ensures r.ok == b.paintDispose(p.content)
    ensures p.compTarget.Some? ==> p.compTarget.value.content in r.order[..|r.order| - 1]
    decreases p
  {
    var before := if p.compTarget.Some? then Dispose(b, p.compTarget.value).order else [];
    DisposeResult(before + [p.content], b.paintDispose(p.content))
  }

  /** Disposal walks the composite chain deepest first: every target is
      disposed exactly once, and before the node that owns it. */
  lemma {:induction false} DisposeDeepestFirst(b: Backend, p: Paint)
    ensures Dispose(b, p).order == Reverse(Chain(p))
    decreases p
  {
    if p.compTarget.Some? {
      DisposeDeepestFirst(b, p.compTarget.value);
      assert Chain(p)[1..] == Chain(p.compTarget.value);
    } else {
      assert Chain(p)[1..] == [];
    }
  }

  // ------------------------------------------------------------- duplicate

  /** The outcome of `duplicate` as written: a copy, or a null dereference. */
  datatype DuplicateOutcome = NullDereference | Copied(copy: Paint)

  /** The part of `duplicate` after the payload made its copy `made`
      (nullptr is None): copy the transform and mark it dirty when one
      exists, and copy the opacity. */
  function CopyState(p: Paint, made: Paint): (r: Paint)
    ensures r.opacity == p.opacity
    ensures r.content == made.content && r.compTarget == made.compTarget
    ensures r.compMethod == made.compMethod
    ensures p.rTransform.Some? ==> r.rTransform == p.rTransform && r.flag == made.flag + {Transform}
    ensures p.rTransform.None? ==> r.rTransform == made.rTransform && r.flag == made.flag
  {
    var withTransform := if p.rTransform.Some?
                         then made.(rTransform := p.rTransform, flag := made.flag + {Transform})
                         else made;
    withTransform.(opacity := p.opacity)
  }

  /** `duplicate` as the source writes it: the transform step tests the copy
      for null, but the opacity store that follows does not. */
  function DuplicateAsWritten(p: Paint, made: Option<Paint>): (r: DuplicateOutcome)
    ensures r.NullDereference? <==> made.None?
    ensures r.Copied? ==> r.copy == CopyState(p, made.value)
  {
    if made.None? then NullDereference else Copied(CopyState(p, made.value))
  }

  /** `duplicate` with the null test covering the opacity store as well: a
      missing copy is passed through as null. */
  function Duplicate(p: Paint, made: Option<Paint>): (r: Option<Paint>)
    ensures r.Some? <==> made.Some?
    ensures r.Some? ==> r.value.opacity == p.opacity && r.value.content == made.value.content
    ensures r.Some? ==>
      r.value.compTarget == made.value.compTarget && r.value.compMethod == made.value.compMethod
    ensures r.Some? && p.rTransform.Some? ==>
      r.value.rTransform == p.rTransform && Transform in r.value.flag
    ensures r.Some? && p.rTransform.Some? ==> r.value.flag == made.value.flag + {Transform}
    ensures r.Some? && p.rTransform.None? ==>
      r.value.rTransform == made.value.rTransform && r.value.flag == made.value.flag
  {
    if made.None? then None else Some(CopyState(p, made.value))
  }

  /** The as-written duplicate dereferences null whenever the payload's copy
      fails, and agrees with the guarded one otherwise. */
  lemma DuplicateNullDereference(p: Paint, made: Option<Paint>)
    ensures made.None? ==> DuplicateAsWritten(p, made) == NullDereference && Duplicate(p, made).None?
    ensures made.Some? ==> DuplicateAsWritten(p, made) == Copied(Duplicate(p, made).value)
  {
  }

  /** A copy of a node with a transform is transform-dirty, so its next
      update refreshes the copied transform, and it hands down the same
      opacity as the original would. */
  lemma DuplicateThenUpdate(b: Backend, p: Paint, made: Paint, pTransform: Option<RenderTransform>,
                            opacity: U32, compList: seq<Composite>, pFlag: set<UpdateFlag>)
    requires p.rTransform.Some?
    ensures var c := Duplicate(p, Some(made)).value;
            var r := Update(b, c, pTransform, opacity, compList, pFlag);
            && r.call.Some?
            && r.node.rTransform == b.refresh(p.rTransform.value)
            && r.call.value.transform == HandDown(b, pTransform, b.refresh(p.rTransform.value))
            && r.call.value.opacity == ComposeOpacity(opacity, p.opacity)
  {
  }
}

=== FILE: svg_vector.dfy ===
/** The SVG loader's growable array `SvgVector<T>`: a buffer that doubles
    when full, with a live count and a reserved capacity. */
module SvgVector {

  /** `buf` holds every slot written so far (realloc keeps them; `pop` only
      lowers `cnt`, so a popped slot stays in memory until overwritten),
      `cnt` is the number of live elements and `reserved` the capacity. */
  datatype Vector<T> = Vector(buf: seq<T>, cnt: nat, reserved: nat)

  /** Representation invariant: the live elements are written slots, and no
      slot lies beyond the allocated capacity. */
  predicate Valid<T>(v: Vector<T>)
  {
    v.cnt <= |v.buf| <= v.reserved
  }

  /** The live elements `list[0 .. cnt)`. */
  function Elements<T>(v: Vector<T>): seq<T>
    requires v.cnt <= |v.buf|
  {
    v.buf[..v.cnt]
  }

  /** A freshly declared vector: null list, zero count, zero capacity. */
  function Empty<T>(): (r: Vector<T>)
    ensures Valid(r) && Elements(r) == [] && r.reserved == 0
  {
    Vector([], 0, 0)
  }

  /** `push`: grow to `(cnt + 1) * 2` slots when full, then write the element
      at index `cnt` and bump the count. */
  function Push<T>(v: Vector<T>, e: T): (r: Vector<T>)
    requires Valid(v)
    ensures Valid(r)
    ensures r.cnt == v.cnt + 1
    ensures Elements(r) == Elements(v) + [e]
    ensures r.buf[v.cnt] == e
    ensures forall i :: 0 <= i < v.cnt ==> r.buf[i] == v.buf[i]
    ensures v.cnt + 1 > v.reserved ==> r.reserved == (v.cnt + 1) * 2
    ensures v.cnt + 1 <= v.reserved ==> r.reserved == v.reserved
    ensures v.reserved <= r.reserved
    ensures v.reserved <= 2 * v.cnt ==> r.reserved <= 2 * r.cnt
  {
    var reserved := if v.cnt + 1 > v.reserved then (v.cnt + 1) * 2 else v.reserved;
    var buf := if v.cnt < |v.buf| then v.buf[v.cnt := e] else v.buf + [e];
    Vector(buf, v.cnt + 1, reserved)
  }

  /** `pop`: drop the last live element; a no-op on an empty vector. */
  function Pop<T>(v: Vector<T>): (r: Vector<T>)
    requires Valid(v)
    ensures Valid(r)
    ensures r.reserved == v.reserved && r.buf == v.buf
    ensures v.cnt > 0 ==> r.cnt == v.cnt - 1 && Elements(r) == Elements(v)[..v.cnt - 1]
    ensures v.cnt == 0 ==> r == v
  {
    if v.cnt > 0 then v.(cnt := v.cnt - 1) else v
  }

  /** `clear`: free the list and zero both counters. */
  function Clear<T>(v: Vector<T>): (r: Vector<T>)
    ensures Valid(r)
    ensures Elements(r) == [] && r.cnt == 0 && r.reserved == 0
  {
    Vector([], 0, 0)
  }

  /** Pushing each element of `es` in order, as the loader does while it
      collects nodes. */
  function PushAll<T>(v: Vector<T>, es: seq<T>): (r: Vector<T>)
    requires Valid(v)
    ensures Valid(r)
    decreases |es|
  {
    if es == [] then v else PushAll(Push(v, es[0]), es[1..])
  }

  /** Popping `n` times. */
  function PopN<T>(v: Vector<T>, n: nat): (r: Vector<T>)
    requires Valid(v)
    ensures Valid(r)
    decreases n
  {
    if n == 0 then v else PopN(Pop(v), n - 1)
  }

  /** A push undone by a pop: the count and the live elements come back; the
      capacity a growth reserved is kept. */
  lemma PushThenPop<T>(v: Vector<T>, e: T)
    requires Valid(v)
    ensures Pop(Push(v, e)).cnt == v.cnt
    ensures Elements(Pop(Push(v, e))) == Elements(v)
    ensures Pop(Push(v, e)).reserved == Push(v, e).reserved
  {
  }

  /** Pushing a sequence appends it to the live elements, in order. */
  lemma {:induction false} PushAllAppends<T>(v: Vector<T>, es: seq<T>)
    requires Valid(v)
    ensures PushAll(v, es).cnt == v.cnt + |es|
    ensures Elements(PushAll(v, es)) == Elements(v) + es
    decreases |es|
  {
    if es != [] {
      var w := Push(v, es[0]);
      PushAllAppends(w, es[1..]);
      assert Elements(v) + es == (Elements(v) + [es[0]]) + es[1..];
    }
  }

  /** Popping `n` live elements removes exactly the last `n`. */
  lemma {:induction false} PopNDrops<T>(v: Vector<T>, n: nat)
    requires Valid(v)
    requires n <= v.cnt
    ensures PopN(v, n).cnt == v.cnt - n
    ensures Elements(PopN(v, n)) == Elements(v)[..v.cnt - n]
    ensures PopN(v, n).reserved == v.reserved
    decreases n
  {
    if n > 0 {
      PopNDrops(Pop(v), n - 1);
    }
  }

  /** Stack discipline: popping as many elements as were pushed restores the
      original live elements, whatever the growth did to the capacity. */
  lemma PushAllThenPopN<T>(v: Vector<T>, es: seq<T>)
    requires Valid(v)
    ensures PopN(PushAll(v, es), |es|).cnt == v.cnt
    ensures Elements(PopN(PushAll(v, es), |es|)) == Elements(v)
  {
    var w := PushAll(v, es);
    PushAllAppends(v, es);
    PopNDrops(w, |es|);
    assert Elements(w)[..v.cnt] == Elements(v);
  }

  /** Starting from a fresh vector, the capacity never exceeds twice the count
      after any run of pushes: the doubling policy does not over-allocate. */
  lemma {:induction false} PushAllCapacityBound<T>(v: Vector<T>, es: seq<T>)
    requires Valid(v)
    requires v.reserved <= 2 * v.cnt
    ensures PushAll(v, es).reserved <= 2 * PushAll(v, es).cnt
    decreases |es|
  {
    if es != [] {
      PushAllCapacityBound(Push(v, es[0]), es[1..]);
    }
  }
}

=== FILE: sw_image.dfy ===
/** Image preparation in the software rasterizer: the picture's rectangle
    becomes a one-contour outline in 26.6 fixed point, its integer bounding
    box is computed and clamped to the clip size, and the image is checked
    for anything to draw. */
module SwImage {
  import opened Wrappers

  /** A rasterizer point in 26.6 fixed point (64 units per pixel). */
  datatype SwPoint = SwPoint(x: int, y: int)

  /** Segment tag of an outline point (`SW_CURVE_TYPE_POINT` is on-curve). */
  datatype CurveType = CurvePoint

  /** An outline: points with a parallel list of tags, grouped into contours
      by the indices of their last points. The point and contour counts are
      the sequence lengths; the reserved counts are the buffer capacities. */
  datatype SwOutline = SwOutline(
    pts: seq<SwPoint>,
    types: seq<CurveType>,
    cntrs: seq<int>,
    reservedPtsCnt: nat,
    reservedCntrsCnt: nat,
    isOpened: bool)

  /** Integer box in device pixels. */
  datatype SwBBox = SwBBox(min: SwPoint, max: SwPoint)

  /** The clip (target) size in device pixels. */
  datatype SwSize = SwSize(w: int, h: int)

  /** Opaque handle of an RLE span buffer produced by the scanline rasterizer. */
  type Rle = nat

  /** The rasterizer's per-picture state: pooled outline, cached RLE, box and size. */
  datatype SwImage = SwImage(
    outline: Option<SwOutline>,
    rle: Option<Rle>,
    bbox: SwBBox,
    width: real,
    height: real)

  /** An image operation's new state and its boolean result. */
  datatype ImageStep = ImageStep(image: SwImage, ok: bool)

  /** `_updateBBox`'s written box and its boolean result. */
  datatype BBoxUpdate = BBoxUpdate(bbox: SwBBox, ok: bool)

  /** Extremes of the points' coordinates, in 26.6 units. */
  datatype Extent = Extent(xMin: int, xMax: int, yMin: int, yMax: int)

  /** `_initBBox`: every corner at zero. */
  const ZeroBBox: SwBBox := SwBBox(SwPoint(0, 0), SwPoint(0, 0))

  /** Outline shape invariant: tags parallel the points, there is at least one
      contour, contour ends strictly increase, and the last one closes the
      final point. */
  predicate WellFormed(o: SwOutline)
  {
    && |o.types| == |o.pts|
    && |o.cntrs| > 0
    && 0 <= o.cntrs[0]
    && (forall k :: 0 < k < |o.cntrs| ==> o.cntrs[k - 1] < o.cntrs[k])
    && o.cntrs[|o.cntrs| - 1] == |o.pts| - 1
  }

  /** Two outline points differ. */
  predicate NotAllCoincide(pts: seq<SwPoint>)
  {
    exists i, j :: 0 <= i < |pts| && 0 <= j < |pts| && pts[i] != pts[j]
  }

  function Max(a: int, b: int): int { if a < b then b else a }

  function Min(a: int, b: int): int { if a > b then b else a }

  /** `v >> 6` on a signed coordinate is an arithmetic shift: the pixel that
      contains `v`, rounding toward minus infinity. */
  function FloorPixel(v: int): (r: int)
    ensures 64 * r <= v < 64 * r + 64
  {
    v / 64
  }

  /** `(v + 63) >> 6`: the smallest pixel edge at or beyond `v`. */
  function CeilPixel(v: int): (r: int)
    ensures 64 * r - 64 < v <= 64 * r
  {
    FloorPixel(v + 63)
  }

  /** The scan loop of `_updateBBox`: starting from the first point, widen the
      extremes by each later point in turn. The extremes bound every point
      and are attained by some point. */
  function Scan(pts: seq<SwPoint>): (e: Extent)
    requires |pts| > 0
    ensures forall i :: 0 <= i < |pts| ==>
      e.xMin <= pts[i].x <= e.xMax && e.yMin <= pts[i].y <= e.yMax
    ensures exists i :: 0 <= i < |pts| && pts[i].x == e.xMin
    ensures exists i :: 0 <= i < |pts| && pts[i].x == e.xMax
    ensures exists i :: 0 <= i < |pts| && pts[i].y == e.yMin
    ensures exists i :: 0 <= i < |pts| && pts[i].y == e.yMax
    decreases |pts|
  {
    if |pts| == 1 then
      Extent(pts[0].x, pts[0].x, pts[0].y, pts[0].y)
    else
      var e := Scan(pts[..|pts| - 1]);
      var p := pts[|pts| - 1];
      Extent(
        if e.xMin > p.x then p.x else e.xMin,
        if e.xMax < p.x then p.x else e.xMax,
        if e.yMin > p.y then p.y else e.yMin,
        if e.yMax < p.y then p.y else e.yMax)
  }

  /** The device box before clamping: minimum rounded down, maximum up. */
  function RawBox(e: Extent): SwBBox
  {
    SwBBox(SwPoint(FloorPixel(e.xMin), FloorPixel(e.yMin)),
           SwPoint(CeilPixel(e.xMax), CeilPixel(e.yMax)))
  }

  /** Clamp the minimum to at least 0 and the maximum to at most the clip size. */
  function Clamp(b: SwBBox, clip: SwSize): SwBBox
  {
    SwBBox(SwPoint(Max(b.min.x, 0), Max(b.min.y, 0)),
           SwPoint(Min(b.max.x, clip.w), Min(b.max.y, clip.h)))
  }

  /** The unclamped device box is the smallest integer box whose 26.6 image
      covers every point: every point lies inside it, and shrinking any side
      by one pixel leaves some point outside. */
  lemma RawBoxIsTightCover(pts: seq<SwPoint>)
    requires |pts| > 0
    ensures forall i :: 0 <= i < |pts| ==>
      && 64 * RawBox(Scan(pts)).min.x <= pts[i].x <= 64 * RawBox(Scan(pts)).max.x
      && 64 * RawBox(Scan(pts)).min.y <= pts[i].y <= 64 * RawBox(Scan(pts)).max.y
    ensures exists i :: 0 <= i < |pts| && pts[i].x < 64 * (RawBox(Scan(pts)).min.x + 1)
    ensures exists i :: 0 <= i < |pts| && pts[i].x > 64 * (RawBox(Scan(pts)).max.x - 1)
    ensures exists i :: 0 <= i < |pts| && pts[i].y < 64 * (RawBox(Scan(pts)).min.y + 1)
    ensures exists i :: 0 <= i < |pts| && pts[i].y > 64 * (RawBox(Scan(pts)).max.y - 1)
  {
    var e := Scan(pts);
    var i0 :| 0 <= i0 < |pts| && pts[i0].x == e.xMin;
    var i1 :| 0 <= i1 < |pts| && pts[i1].x == e.xMax;
    var i2 :| 0 <= i2 < |pts| && pts[i2].y == e.yMin;
    var i3 :| 0 <= i3 < |pts| && pts[i3].y == e.yMax;
    assert pts[i0].x < 64 * (RawBox(e).min.x + 1);
    assert pts[i1].x > 64 * (RawBox(e).max.x - 1);
    assert pts[i2].y < 64 * (RawBox(e).min.y + 1);
    assert pts[i3].y > 64 * (RawBox(e).max.y - 1);
  }

  /** `_updateBBox`: no outline leaves the box alone and fails; an outline
      without points zeroes the box and fails; otherwise the clamped box is
      written and the result says whether the points span any distance. For
      integer coordinates "raw extent below 1 in both axes" means all points
      coincide. */
  function UpdateBBox(outline: Option<SwOutline>, bbox: SwBBox, clip: SwSize): (r: BBoxUpdate)
    ensures outline.None? ==> r == BBoxUpdate(bbox, false)
    ensures outline.Some? && |outline.value.pts| == 0 ==> r == BBoxUpdate(ZeroBBox, false)
    ensures outline.Some? && |outline.value.pts| > 0 ==>
      && r.bbox == Clamp(RawBox(Scan(outline.value.pts)), clip)
      && (r.ok <==> NotAllCoincide(outline.value.pts))
    ensures outline.Some? && |outline.value.pts| > 0 ==>
      r.bbox.min.x >= 0 && r.bbox.min.y >= 0 && r.bbox.max.x <= clip.w && r.bbox.max.y <= clip.h
  {
    if outline.None? then BBoxUpdate(bbox, false)
    else if |outline.value.pts| == 0 then BBoxUpdate(ZeroBBox, false)
    else
      var pts := outline.value.pts;
      var e := Scan(pts);
      DegenerateIffCoincide(pts);
      BBoxUpdate(Clamp(RawBox(e), clip), !(e.xMax - e.xMin < 1 && e.yMax - e.yMin < 1))
  }

  /** The degenerate test of `_updateBBox` rejects exactly the outlines whose
      points all coincide. */
  lemma DegenerateIffCoincide(pts: seq<SwPoint>)
    requires |pts| > 0
    ensures var e := Scan(pts);
      (e.xMax - e.xMin < 1 && e.yMax - e.yMin < 1) <==> !NotAllCoincide(pts)
  {
    var e := Scan(pts);
    if e.xMax - e.xMin >= 1 {
      var i :| 0 <= i < |pts| && pts[i].x == e.xMin;
      var j :| 0 <= j < |pts| && pts[j].x == e.xMax;
      assert pts[i] != pts[j];
    } else if e.yMax - e.yMin >= 1 {
      var i :| 0 <= i < |pts| && pts[i].y == e.yMin;
      var j :| 0 <= j < |pts| && pts[j].y == e.yMax;
      assert pts[i] != pts[j];
    } else {
      forall i, j | 0 <= i < |pts| && 0 <= j < |pts|
        ensures pts[i] == pts[j]
      {
        assert pts[i].x == e.xMin == pts[j].x;
        assert pts[i].y == e.yMin == pts[j].y;
      }
    }
  }

  /** `_checkValid`: there are points and contours, and the box meets the
      clip rectangle. */
  function CheckValid(o: SwOutline, bbox: SwBBox, clip: SwSize): (r: bool)
    ensures r <==> && |o.pts| > 0 && |o.cntrs| > 0
                   && bbox.min.x < clip.w && bbox.min.y < clip.h
                   && bbox.max.x > 0 && bbox.max.y > 0
  {
    if |o.pts| == 0 || |o.cntrs| <= 0 then false
    else if bbox.min.x >= clip.w || bbox.min.y >= clip.h || bbox.max.x <= 0 || bbox.max.y <= 0 then false
    else true
  }

  /** The picture's four corners `(0,0) (w,0) (w,h) (0,h)`, each mapped to
      26.6 by `toSw` (the transform of `mathTransform`), then the first again
      to close the contour. */
  function RectanglePoints(w: real, h: real, toSw: (real, real) -> SwPoint): seq<SwPoint>
  {
    var p0 := toSw(0.0, 0.0);
    [p0, toSw(w, 0.0), toSw(w, h), toSw(0.0, h), p0]
  }

  /** `imageGenOutline`: take the pooled outline, fail on a zero-width or
      zero-height picture, otherwise write the closed rectangle as five
      on-curve points and one contour. The pool hands out outlines with both
      counts at zero. */
  function ImageGenOutline(image: SwImage, pooled: SwOutline, w: real, h: real,
                           toSw: (real, real) -> SwPoint): (r: ImageStep)
    requires |pooled.pts| == 0 && |pooled.types| == 0 && |pooled.cntrs| == 0
    ensures r.ok <==> w != 0.0 && h != 0.0
    ensures r.image.outline.Some?
    ensures r.image.rle == image.rle && r.image.bbox == image.bbox
    ensures !r.ok ==> r.image == image.(outline := Some(pooled))
    ensures r.ok ==>
      var o := r.image.outline.value;
      && |o.pts| == 5 && |o.cntrs| == 1
      && o.pts[4] == o.pts[0]
      && o.pts[0] == toSw(0.0, 0.0) && o.pts[1] == toSw(w, 0.0)
      && o.pts[2] == toSw(w, h) && o.pts[3] == toSw(0.0, h)
      && (forall i :: 0 <= i < |o.types| ==> o.types[i] == CurvePoint)
      && o.cntrs[0] == |o.pts| - 1
      && !o.isOpened
      && WellFormed(o)
      && r.image.width == w && r.image.height == h
  {
    if w == 0.0 || h == 0.0 then
      ImageStep(image.(outline := Some(pooled)), false)
    else
      var pts := RectanglePoints(w, h, toSw);
      var o := pooled.(
        pts := pts,
        types := [CurvePoint, CurvePoint, CurvePoint, CurvePoint, CurvePoint],
        cntrs := [|pts| - 1],
        reservedPtsCnt := 5,
        reservedCntrsCnt := 1,
        isOpened := false);
      ImageStep(image.(outline := Some(o), width := w, height := h), true)
  }

  /** `imagePrepare`: generate the outline, then the box, then the validity
      check, stopping at the first failure. */
  function ImagePrepare(image: SwImage, pooled: SwOutline, w: real, h: real,
                        toSw: (real, real) -> SwPoint, clip: SwSize): (r: ImageStep)
    requires |pooled.pts| == 0 && |pooled.types| == 0 && |pooled.cntrs| == 0
    ensures r.image.rle == image.rle
    ensures r.image.outline.Some?
    ensures var g := ImageGenOutline(image, pooled, w, h, toSw);
      !g.ok ==> r == g
    ensures var g := ImageGenOutline(image, pooled, w, h, toSw);
      g.ok ==> r.image == g.image.(bbox := UpdateBBox(g.image.outline, g.image.bbox, clip).bbox)
    ensures r.ok <==>
      && w != 0.0 && h != 0.0
      && NotAllCoincide(RectanglePoints(w, h, toSw))
      && CheckValid(r.image.outline.value, r.image.bbox, clip)
    ensures r.ok ==>
      && 0 <= r.image.bbox.min.x <= r.image.bbox.max.x <= clip.w
      && 0 <= r.image.bbox.min.y <= r.image.bbox.max.y <= clip.h
      && r.image.bbox.min.x < clip.w && r.image.bbox.min.y < clip.h
      && 0 < r.image.bbox.max.x && 0 < r.image.bbox.max.y
  {
    var g := ImageGenOutline(image, pooled, w, h, toSw);
    if !g.ok then g
    else
      var b := UpdateBBox(g.image.outline, g.image.bbox, clip);
      var img := g.image.(bbox := b.bbox);
      if !b.ok then ImageStep(img, false)
      else if !CheckValid(img.outline.value, img.bbox, clip) then ImageStep(img, false)
      else ImageStep(img, true)
  }

  /** `imagePrepared`: an image is prepared exactly when it holds an RLE. */
  predicate ImagePrepared(image: SwImage)
    ensures ImagePrepared(image) <==> image.rle != None
  {
    image.rle.Some?
  }

  /** `imageGenRle`: store what the scanline rasterizer returned (`rendered`,
      the result of `rleRender` on this image's outline and box) and report
      whether it produced a mask. */
  function ImageGenRle(image: SwImage, rendered: Option<Rle>): (r: ImageStep)
    ensures r.ok <==> ImagePrepared(r.image)
    ensures r.image.outline == image.outline && r.image.bbox == image.bbox
    ensures r.image.rle == rendered
    ensures r.image.width == image.width && r.image.height == image.height
  {
    ImageStep(image.(rle := rendered), rendered.Some?)
  }

  /** `imageReset`: drop the RLE and zero the box; the outline stays. */
  function ImageReset(image: SwImage): (r: SwImage)
    ensures !ImagePrepared(r)
    ensures r.bbox == ZeroBBox
    ensures r.outline == image.outline && r.width == image.width && r.height == image.height
  {
    image.(rle := None, bbox := ZeroBBox)
  }

  /** `imageDelOutline`: hand the outline back to the pool and forget it. */
  function ImageDelOutline(image: SwImage): (r: SwImage)
    ensures r.outline.None?
    ensures r.rle == image.rle && r.bbox == image.bbox
    ensures r.width == image.width && r.height == image.height
  {
    image.(outline := None)
  }

  /** All points lie on the far side of one clip edge. */
  predicate OutsideClip(pts: seq<SwPoint>, clip: SwSize)
  {
    || (forall i :: 0 <= i < |pts| ==> pts[i].x >= 64 * clip.w)
    || (forall i :: 0 <= i < |pts| ==> pts[i].y >= 64 * clip.h)
    || (forall i :: 0 <= i < |pts| ==> pts[i].x <= 0)
    || (forall i :: 0 <= i < |pts| ==> pts[i].y <= 0)
  }

  /** A picture whose transformed rectangle lies wholly beyond one edge of the
      clip rectangle is never prepared. */
  lemma PrepareRejectsOutside(image: SwImage, pooled: SwOutline, w: real, h: real,
                              toSw: (real, real) -> SwPoint, clip: SwSize)
    requires |pooled.pts| == 0 && |pooled.types| == 0 && |pooled.cntrs| == 0
    requires OutsideClip(RectanglePoints(w, h, toSw), clip)
    ensures !ImagePrepare(image, pooled, w, h, toSw, clip).ok
  {
    var r := ImagePrepare(image, pooled, w, h, toSw, clip);
    var pts := RectanglePoints(w, h, toSw);
    if w != 0.0 && h != 0.0 && NotAllCoincide(pts) {
      assert r.image.outline.value.pts == pts;
      assert r.image.bbox == Clamp(RawBox(Scan(pts)), clip);
      OutsideBoxMissesClip(pts, clip);
    }
  }

  /** The clamped box of points beyond one clip edge fails the boundary test
      of `_checkValid`. */
  lemma OutsideBoxMissesClip(pts: seq<SwPoint>, clip: SwSize)
    requires |pts| > 0 && OutsideClip(pts, clip)
    ensures var b := Clamp(RawBox(Scan(pts)), clip);
      b.min.x >= clip.w || b.min.y >= clip.h || b.max.x <= 0 || b.max.y <= 0
  {
    var e := Scan(pts);
    if forall i :: 0 <= i < |pts| ==> pts[i].x >= 64 * clip.w {
      var i0 :| 0 <= i0 < |pts| && pts[i0].x == e.xMin;
      assert FloorPixel(e.xMin) >= clip.w;
    } else if forall i :: 0 <= i < |pts| ==> pts[i].y >= 64 * clip.h {
      var i2 :| 0 <= i2 < |pts| && pts[i2].y == e.yMin;
      assert FloorPixel(e.yMin) >= clip.h;
    } else if forall i :: 0 <= i < |pts| ==> pts[i].x <= 0 {
      var i1 :| 0 <= i1 < |pts| && pts[i1].x == e.xMax;
      assert CeilPixel(e.xMax) <= 0;
    } else {
      var i3 :| 0 <= i3 < |pts| && pts[i3].y == e.yMax;
      assert CeilPixel(e.yMax) <= 0;
    }
  }

  /** A prepared picture that reaches across a clip edge gets a box clamped
      exactly to that edge: any point left of the first pixel column pins the
      minimum to 0, any point beyond the last column pins the maximum to the
      clip width (and likewise for rows). */
  lemma PrepareClampsToEdges(image: SwImage, pooled: SwOutline, w: real, h: real,
                             toSw: (real, real) -> SwPoint, clip: SwSize)
    requires |pooled.pts| == 0 && |pooled.types| == 0 && |pooled.cntrs| == 0
    requires ImagePrepare(image, pooled, w, h, toSw, clip).ok
    ensures var pts := RectanglePoints(w, h, toSw);
            var b := ImagePrepare(image, pooled, w, h, toSw, clip).image.bbox;
            && ((exists i :: 0 <= i < |pts| && pts[i].x < 64) ==> b.min.x == 0)
            && ((exists i :: 0 <= i < |pts| && pts[i].y < 64) ==> b.min.y == 0)
            && ((exists i :: 0 <= i < |pts| && pts[i].x > 64 * (clip.w - 1)) ==> b.max.x == clip.w)
            && ((exists i :: 0 <= i < |pts| && pts[i].y > 64 * (clip.h - 1)) ==> b.max.y == clip.h)
  {
    var r := ImagePrepare(image, pooled, w, h, toSw, clip);
    var pts := RectanglePoints(w, h, toSw);
    var e := Scan(pts);
    assert r.image.outline.value.pts == pts;
    assert r.image.bbox == Clamp(RawBox(e), clip);
  }

  /** The preparation life cycle: preparing never creates or drops the RLE, a
      reset leaves the image unprepared, and only a mask from the rasterizer
      makes it prepared again. */
  lemma PreparedLifecycle(image: SwImage, pooled: SwOutline, w: real, h: real,
                          toSw: (real, real) -> SwPoint, clip: SwSize, rendered: Option<Rle>)
    requires |pooled.pts| == 0 && |pooled.types| == 0 && |pooled.cntrs| == 0
    ensures var reset := ImageReset(image);
            var prepared := ImagePrepare(reset, pooled, w, h, toSw, clip).image;
            && !ImagePrepared(prepared)
            && (ImagePrepared(ImageGenRle(prepared, rendered).image) <==> rendered.Some?)
  {
  }
}

=== FILE: wrappers.dfy ===
/** Optional values: the model's stand-in for a nullable pointer. */
module Wrappers {

  /** `None` plays the role of `nullptr`; `Some(v)` a live object `v`. */
  datatype Option<+T> = None | Some(value: T)
}
